=== FILE: README.md ===
# StandardNodule — a Dafny model

Gaffer's node graph editor draws a small socket, a *nodule*, for each plug of a
node. Users drag from one nodule to another to connect plugs.
`GafferUI::StandardNodule` is the usual nodule. This project models what it
decides, as pure functions over immutable records:

- **Plug-pair resolution** (`connection`). What is being dragged and this
  nodule's plug are turned into an (input, output) pair or into nothing. The
  dragged object must be a plug, on another node, with the opposite direction.
  The In plug becomes the input, and it must accept the other plug.
- **The nodule's interaction state**: `labelVisible`, `hovering`,
  `draggingConnection` and the drag end position. Each event handler is a
  function returning the new state, whether the event was accepted, and whether
  a redraw was requested. `dragEnter` can also change the *source* nodule, so it
  works on a map from nodule ids to nodules. `drop` edits the plug graph, which
  is modelled as a map from each connected input to its source.
- **Label placement** (`renderLabel`). The tangent angle is bent away from the
  vertical, and the label is turned round when it would read upside down.
- **A session**: several nodules and the plug graph, driven by a sequence of
  signals. Lemmas about any such sequence show these invariants:
  - every connection made through nodules obeys the connection rules;
  - only a drop edits the graph;
  - only a drag entering a nodule starts a connection drag;
  - only `setLabelVisible` changes label visibility.

Files: `plugs.dfy` (module `Plugs`), `standard_nodule.dfy` (module
`StandardNodule`), `label.dfy` (module `LabelLayout`), `session.dfy` (module
`NoduleSession`).

The code's label rotation is neither continuous nor symmetric about zero. The
remap is odd except at ±90: the test at `StandardNodule.cpp` line 149 halves -90
to -45 but sends 90 to 135. The comment at lines 158-159 asks that labels never
read upside down, but the flip that follows is one-sided. The model follows the
code:
- the angle jumps at 90 degrees and at -90 degrees;
- tangents below -90 degrees are never turned round (see Findings).

## Model

| member | source | states |
|---|---|---|
| Plugs.Connection | src/GafferUI/StandardNodule.cpp:292-321 | A pair is found exactly when the payload is a plug that can be connected to this plug one way round: In to Out, on different nodes, and accepted. The pair found is valid and is (this, dropped) or (dropped, this). |
| Plugs.ConnectionSymmetric | src/GafferUI/StandardNodule.cpp:298-309 | Swapping which plug is dragged and which belongs to the nodule gives the same pair. |
| Plugs.OutputOntoInput | src/GafferUI/StandardNodule.cpp:298-313 | An Out plug and an accepting In plug on another node connect as input = the In plug, output = the Out plug, whichever of them is dragged. |
| Plugs.SetInput | src/GafferUI/StandardNodule.cpp:282-285 | After `setInput` the plug's source is the given one (none for a disconnect). Every other plug keeps its source. |
| StandardNodule.Initial | src/GafferUI/StandardNodule.cpp:62-63 | A new nodule has its label hidden and is neither hovering nor dragging. |
| StandardNodule.SetLabelVisible | src/GafferUI/StandardNodule.cpp:81-94 | Afterwards `getLabelVisible` returns the value given. A redraw is requested exactly when the value changed. The other state is unchanged. |
| StandardNodule.SetLabelVisibleTwice | src/GafferUI/StandardNodule.cpp:81-89 | A second identical call changes nothing and requests no redraw, so two calls give at most one redraw. |
| StandardNodule.Bound | src/GafferUI/StandardNodule.cpp:96-99 | The bound is a unit square centred on the nodule, with zero depth, for every state. |
| StandardNodule.Render | src/GafferUI/StandardNodule.cpp:101-131 | The socket is highlighted, at radius 1, exactly when hovering, and otherwise drawn at radius 0.5. The drag curve is drawn exactly when a connection is being dragged and this is not a selection pass. The label is drawn exactly when it is visible, this is not a selection pass, and the nodule is inside a node gadget. |
| StandardNodule.Enter | src/GafferUI/StandardNodule.cpp:177-181 | Only `hovering` changes, and it becomes true. A redraw is requested. |
| StandardNodule.Leave | src/GafferUI/StandardNodule.cpp:183-187 | Only `hovering` changes, and it becomes false. A redraw is requested. |
| StandardNodule.HoverChangesSocket | src/GafferUI/StandardNodule.cpp:117-125 | After enter, the socket is drawn large and highlighted. After leave, it is drawn small and normal. |
| StandardNodule.ButtonPress | src/GafferUI/StandardNodule.cpp:189-199 | A press is accepted exactly when the left or the middle button bit is set. |
| StandardNodule.ButtonPressExamples | src/GafferUI/StandardNodule.cpp:191-198 | A right-only press and a press with no buttons are declined. Left, middle and left+right presses are accepted. |
| StandardNodule.DragBegin | src/GafferUI/StandardNodule.cpp:201-206 | The drag carries this nodule's plug. Only the drag position changes, and it becomes the pointer position. A redraw is requested. |
| StandardNodule.DragEnter | src/GafferUI/StandardNodule.cpp:208-236 | There are three outcomes. (1) The drag comes from this nodule: it starts dragging, the enter is accepted, and nothing else changes. (2) The payload connects: this nodule hovers, a standard-nodule source is snapped and marked as dragging, a redraw is requested, the enter is accepted, and no other nodule changes. Every nodule keeps its plug. (3) Otherwise the enter is declined and nothing changes. |
| StandardNodule.DragMove | src/GafferUI/StandardNodule.cpp:238-243 | The drag end follows the pointer. The move is accepted and a redraw is requested. |
| StandardNodule.DragLeave | src/GafferUI/StandardNodule.cpp:245-258 | A leave is always accepted and redrawn. A nodule that is not the source only stops hovering. The source stays dragging exactly when it was dragging and the destination is a nodule. |
| StandardNodule.DragEnd | src/GafferUI/StandardNodule.cpp:260-266 | Afterwards the nodule is neither dragging nor hovering, whatever it was before. The end is accepted and a redraw is requested. |
| StandardNodule.OwnDragDrawsCurve | src/GafferUI/StandardNodule.cpp:103-114 | Once a drag enters its own source nodule, that nodule draws the drag curve. Leaving it for a target that is not a nodule stops the curve. |
| StandardNodule.DragEndStopsFeedback | src/GafferUI/StandardNodule.cpp:103-125 | After a drag end, no connection curve is drawn and the socket is drawn normal and small. |
| StandardNodule.Drop | src/GafferUI/StandardNodule.cpp:268-290 | The nodule always stops hovering, and the drop is accepted exactly when the payload connects. If accepted, the input's source becomes the output. A re-dragged connection's old destination is disconnected only when this plug is an input. No other plug's source changes. Valid graphs stay valid. |
| StandardNodule.DropNonPlugDeclined | src/GafferUI/StandardNodule.cpp:294-295 | Dropping something that is not a plug is declined and leaves the graph unchanged. |
| LabelLayout.RemapAngle | src/GafferUI/StandardNodule.cpp:147-156 | The remap is a closed form: the angle is halved on [-90, 90), is 90 + θ/2 from 90 up, and is θ/2 - 90 below -90. |
| LabelLayout.RemapAsymmetricAt90 | src/GafferUI/StandardNodule.cpp:149-156 | The remap is not odd at ±90: 90 goes to 135 but -90 goes to -45. Just below -90 the remap falls to about -135. |
| LabelLayout.RemapKeepsSignAndRange | src/GafferUI/StandardNodule.cpp:149-156 | The remap keeps the sign, and 0 stays 0. Results stay within [-180, 180]. Near-horizontal angles land within 45 degrees, and the rest at 135 degrees or more. |
| LabelLayout.LabelPlacement | src/GafferUI/StandardNodule.cpp:158-167 | The anchor's y is the bound's centre. The label is turned round (rotation - 180, anchor at max.x + 1) exactly when the remapped angle exceeds 90. Otherwise the anchor is at min.x - 1 and the rotation is unchanged. |
| LabelLayout.PlacementUprightFromMinus90To180 | src/GafferUI/StandardNodule.cpp:143-167 | For tangent angles in [-90, 180], the final rotation is within [-45, 45]. |
| LabelLayout.PlacementFlipsFrom90 | src/GafferUI/StandardNodule.cpp:163-167 | Over the whole range of `atan2`, the label is turned round exactly for tangent angles of 90 and above. |
| LabelLayout.PlacementUpsideDownBelowMinus90 | src/GafferUI/StandardNodule.cpp:158-167 | Tangent angles below -90 are never turned round, so their rotation is -135 or less. For example, -135 gives -157.5. |
| LabelLayout.UprightLabelPlacement | src/GafferUI/StandardNodule.cpp:158-167 | With the corrected flip, the label is turned round exactly when the remapped angle is beyond 90 either way. It then turns back towards horizontal (-180 above 90, +180 below -90) and is anchored at max.x + 1. |
| LabelLayout.UprightPlacementAlwaysUpright | src/GafferUI/StandardNodule.cpp:143-167 | With the corrected flip, every tangent angle gives a rotation within [-45, 45]. From -90 up, it agrees with the code as written. |
| NoduleSession.Dispatch | src/GafferUI/StandardNodule.cpp:65-74 | Each signal goes to its handler: the target's new state, and for a drop the new graph, are the handler's result. Only a drag enter can change a nodule other than the target. Nodules and plugs are kept. Only a drop touches the graph, which stays valid. Only a drag enter starts dragging. Only the label call changes label visibility. |
| NoduleSession.Run | src/GafferUI/StandardNodule.cpp:65-74 | Replaying signals keeps the same set of nodules. |
| NoduleSession.RunKeepsConnectionsValid | src/GafferUI/StandardNodule.cpp:268-321 | After any sequence of signals, every connection in the graph is In-from-Out, across nodes, and accepted. |
| NoduleSession.RunWithoutDropKeepsGraph | src/GafferUI/StandardNodule.cpp:279-285 | A sequence without a drop leaves the plug graph unchanged. |
| NoduleSession.DraggingStartsOnlyOnDragEnter | src/GafferUI/StandardNodule.cpp:208-266 | If no nodule is dragging and no drag enters a nodule, no nodule starts dragging. |
| NoduleSession.LabelVisibilityOnlyBySetter | src/GafferUI/StandardNodule.cpp:81-94 | Without a `setLabelVisible` call, every nodule keeps its label visibility. |

## Left out

- Drawing itself is not modelled: `renderConnection`, `renderNodule`, `renderText`, `glRotatef` and `glTranslatef` are foreign rendering calls. `Render` records only which branches are taken. The selection-pass test becomes the `selecting` flag. The default tangent used without a node gadget is not modelled.
- The snap geometry in `dragEnter` (full transforms and their inverse) is not modelled. The snapped point is the `snap` parameter.
- `atan2f`, `radiansToDegrees` and `textBound` are not modelled: their results are inputs. Angles are real numbers, not single-precision floats.
- The undo context in `drop`, runtime type registration, and `ancestor<NodeGadget>()` lookups are framework plumbing. The lookups become the `hasNodeGadget` flag.
- Signal wiring is modelled only as the routing in `NoduleSession.Dispatch`.
- `Plug::acceptsInput` is an abstract relation, held fixed over a `Run`. In Gaffer it may depend on the graph's current state.
- `Plug::setInput` is modelled only as the map update. Its other effects (dirty propagation, signals, child plugs) are not modelled.
- `Plugs.Connection`: plug directions are two-valued (In, Out). `Gaffer/Plug.h` is not part of this model, and any third direction value it defines is not covered.
- `StandardNodule.ButtonPress`: the button bits are taken as Left = 1, Middle = 2, Right = 4. `GafferUI/ButtonEvent.h` is not part of this model.
- The constructor leaves the drag position unset, so `StandardNodule.Initial` takes it as a parameter.

## Findings

| source | as written | input that shows it | evidently intended | confidence | as-written member | corrected member |
|---|---|---|---|---|---|---|
| src/GafferUI/StandardNodule.cpp:158-167 | Only remapped angles above 90 degrees are turned round. The comment says the label should never be upside down. | A tangent of (-1, -1) is -135 degrees. It remaps to -157.5 and is drawn at -157.5 degrees, upside down. A tangent of (-1, -0.0) gives -180. | Remapped angles below -90 should also be turned round: add 180 degrees and anchor at max.x + 1. | medium; not executed. The tangents of the standard node gadget do not reach this range. | LabelLayout.PlacementUpsideDownBelowMinus90 | LabelLayout.UprightLabelPlacement |

=== FILE: label.dfy ===
/**
  Placement of a nodule's text label (`StandardNodule::renderLabel`). The
  label is rotated to follow the direction in which connections leave the
  node, bent away from the vertical, and turned round with its anchor moved to
  the other end when it would otherwise read upside down.

  The tangent angle `theta` (degrees, from `atan2`, so within [-180, 180]) and
  the label's text bound are inputs; angles are real numbers rather than
  single-precision floats.
 */
module LabelLayout {

  /** Imath's `sign`: 1, -1, or 0 for zero. */
  function Sign(x: real): (r: real)
    ensures r == 1.0 || r == -1.0 || r == 0.0
    ensures r * x >= 0.0 && (r == 0.0 <==> x == 0.0)
  {
    if x > 0.0 then 1.0 else if x < 0.0 then -1.0 else 0.0
  }

  function Abs(x: real): real
  {
    if x < 0.0 then -x else x
  }

  /** Imath's `lerp`: the point a fraction `t` of the way from `a` to `b`. */
  function Lerp(a: real, b: real, t: real): real
  {
    a * (1.0 - t) + b * t
  }

  /**
    The angle remap that keeps labels away from the vertical: angles in
    (0, 90) and [-90, 0) are halved into (0, 45) and [-45, 0); every other
    angle, including 0, keeps its sign and has its magnitude taken from
    [90, 180] to [135, 180]. Zero goes through the second branch and stays 0.
   */
  function RemapAngle(theta: real): (r: real)
    ensures -90.0 <= theta < 90.0 ==> r == theta / 2.0
    ensures theta >= 90.0 ==> r == 90.0 + theta / 2.0
    ensures theta < -90.0 ==> r == theta / 2.0 - 90.0
  {
    if (theta > 0.0 && theta < 90.0) || (theta < 0.0 && theta >= -90.0) then
      Sign(theta) * Lerp(0.0, 45.0, Abs(theta) / 90.0)
    else
      Sign(theta) * Lerp(135.0, 180.0, (Abs(theta) - 90.0) / 90.0)
  }

  /**
    The branch test treats the two vertical tangents differently: straight up
    (90) takes the outer branch, straight down (-90) is halved, and the remap
    jumps on both sides of each.
   */
  lemma RemapAsymmetricAt90()
    ensures RemapAngle(90.0) == 135.0
    ensures RemapAngle(-90.0) == -45.0
    ensures RemapAngle(-90.0) != -RemapAngle(90.0)
    ensures RemapAngle(-91.0) == -135.5
  {
  }

  /** The remapped angle has the sign of the tangent angle and stays within [-180, 180]. */
  lemma RemapKeepsSignAndRange(theta: real)
    requires -180.0 <= theta <= 180.0
    ensures RemapAngle(theta) > 0.0 <==> theta > 0.0
    ensures RemapAngle(theta) < 0.0 <==> theta < 0.0
    ensures -180.0 <= RemapAngle(theta) <= 180.0
    ensures 0.0 < Abs(theta) < 90.0 || theta == -90.0 ==> Abs(RemapAngle(theta)) <= 45.0
    ensures Abs(theta) >= 90.0 && theta != -90.0 ==> Abs(RemapAngle(theta)) >= 135.0
  {
  }

  /** The rotation and anchor the label is drawn with; `flipped` records which anchor was chosen. */
  datatype Placement = Placement(rotation: real, anchorX: real, anchorY: real, flipped: bool)

  /**
    Label placement as written: the anchor is one unit left of the text's
    bound, at its vertical centre; when the remapped angle exceeds 90 degrees
    the text is turned by -180 degrees and anchored one unit right of the
    bound instead. Only angles above 90 are turned round.
   */
  function LabelPlacement(theta: real, minX: real, maxX: real, centreY: real): (p: Placement)
    ensures p.anchorY == centreY
    ensures p.flipped <==> RemapAngle(theta) > 90.0
    ensures p.flipped ==> p.rotation == RemapAngle(theta) - 180.0 && p.anchorX == maxX + 1.0
    ensures !p.flipped ==> p.rotation == RemapAngle(theta) && p.anchorX == minX - 1.0
  {
    var t := RemapAngle(theta);
    if t > 90.0 then Placement(t - 180.0, maxX + 1.0, centreY, true)
    else Placement(t, minX - 1.0, centreY, false)
  }

  /** Tangents from straight down round through to the left give labels within 45 degrees of horizontal. */
  lemma PlacementUprightFromMinus90To180(theta: real, minX: real, maxX: real, centreY: real)
    requires -90.0 <= theta <= 180.0
    ensures -45.0 <= LabelPlacement(theta, minX, maxX, centreY).rotation <= 45.0
  {
  }

  /** Within the range `atan2` returns, the label is turned round exactly for tangent angles of 90 degrees and above. */
  lemma PlacementFlipsFrom90(theta: real, minX: real, maxX: real, centreY: real)
    requires -180.0 <= theta <= 180.0
    ensures LabelPlacement(theta, minX, maxX, centreY).flipped <==> theta >= 90.0
  {
  }

  /**
    The as-written placement leaves tangents below -90 degrees unflipped, so
    their labels are drawn rotated by more than 135 degrees, that is upside
    down; a tangent of (-1, -1) (-135 degrees) gives a rotation of -157.5.
   */
  lemma PlacementUpsideDownBelowMinus90(theta: real, minX: real, maxX: real, centreY: real)
    requires -180.0 <= theta < -90.0
    ensures !LabelPlacement(theta, minX, maxX, centreY).flipped
    ensures LabelPlacement(theta, minX, maxX, centreY).rotation <= -135.0
    ensures LabelPlacement(-135.0, minX, maxX, centreY).rotation == -157.5
  {
  }

  /**
    The placement the comment on the flip promises: remapped angles beyond 90
    degrees either way are turned half a revolution back towards horizontal and
    anchored at the far end of the text.
   */
  function UprightLabelPlacement(theta: real, minX: real, maxX: real, centreY: real): (p: Placement)
    ensures p.anchorY == centreY
    ensures p.flipped <==> RemapAngle(theta) > 90.0 || RemapAngle(theta) < -90.0
    ensures p.flipped ==> p.anchorX == maxX + 1.0
    ensures p.flipped ==>
              p.rotation == (if RemapAngle(theta) > 90.0 then RemapAngle(theta) - 180.0 else RemapAngle(theta) + 180.0)
    ensures !p.flipped ==> p.rotation == RemapAngle(theta) && p.anchorX == minX - 1.0
  {
    var t := RemapAngle(theta);
    if t > 90.0 then Placement(t - 180.0, maxX + 1.0, centreY, true)
    else if t < -90.0 then Placement(t + 180.0, maxX + 1.0, centreY, true)
    else Placement(t, minX - 1.0, centreY, false)
  }

  /** With the corrected flip every tangent angle gives a label within 45 degrees of horizontal. */
  lemma UprightPlacementAlwaysUpright(theta: real, minX: real, maxX: real, centreY: real)
    requires -180.0 <= theta <= 180.0
    ensures -45.0 <= UprightLabelPlacement(theta, minX, maxX, centreY).rotation <= 45.0
    ensures theta >= -90.0 ==> UprightLabelPlacement(theta, minX, maxX, centreY) == LabelPlacement(theta, minX, maxX, centreY)
  {
  }
}

=== FILE: plugs.dfy ===
/**
  Plugs, drag payloads and the plug-pair resolution a nodule performs when
  something is dragged onto it (`StandardNodule::connection`), together with
  the plug input graph that a successful drop edits.

  A plug is a value with an identity, the node it belongs to and a direction.
  Whether one plug accepts another as its input (`Plug::acceptsInput`) is
  decided outside this component, so it is passed around as the relation
  `accepts(input, output)`.
 */
module Plugs {

  type PlugId = nat
  type NodeId = nat

  datatype Option<T> = None | Some(value: T)

  datatype Direction = In | Out

  datatype Plug = Plug(id: PlugId, node: NodeId, direction: Direction)

  /** What a drag carries: either a plug or some other object. */
  datatype Payload = PlugPayload(plug: Plug) | OtherPayload

  /** A resolved connection: `input` is to take `output` as its source. */
  datatype PlugPair = PlugPair(input: Plug, output: Plug)

  /** `accepts(i, o)` answers `i->acceptsInput( o )`. */
  type Acceptance = (Plug, Plug) -> bool

  /** The rules a connection must satisfy, stated on the ordered pair. */
  predicate ValidPair(p: PlugPair, accepts: Acceptance)
  {
    && p.input.direction == In
    && p.output.direction == Out
    && p.input.node != p.output.node
    && accepts(p.input, p.output)
  }

  /** The dragged data is a plug that can be connected to `plug`, one way round or the other. */
  predicate Compatible(data: Payload, plug: Plug, accepts: Acceptance)
  {
    && data.PlugPayload?
    && (ValidPair(PlugPair(plug, data.plug), accepts) || ValidPair(PlugPair(data.plug, plug), accepts))
  }

  /**
    Resolves the dragged data against this nodule's plug: the data must be a
    plug on another node with the opposite direction, the In plug becomes the
    input, and the input must accept the output. Anything else yields no pair.
   */
  function Connection(data: Payload, plug: Plug, accepts: Acceptance): (r: Option<PlugPair>)
    ensures r.Some? <==> Compatible(data, plug, accepts)
    ensures r.Some? ==> ValidPair(r.value, accepts)
    ensures r.Some? ==>
              || r.value == PlugPair(plug, data.plug)
              || r.value == PlugPair(data.plug, plug)
  {
    if data.PlugPayload? then
      var dropPlug := data.plug;
      if plug.node != dropPlug.node && plug.direction != dropPlug.direction then
        var pair := if plug.direction == In then PlugPair(plug, dropPlug) else PlugPair(dropPlug, plug);
        if accepts(pair.input, pair.output) then Some(pair) else None
      else
        None
    else
      None
  }

  /** The pair found does not depend on which of the two plugs belongs to this nodule. */
  lemma ConnectionSymmetric(a: Plug, b: Plug, accepts: Acceptance)
    ensures Connection(PlugPayload(a), b, accepts) == Connection(PlugPayload(b), a, accepts)
  {
  }

  /** Dragging an output onto an input on another node that accepts it connects them. */
  lemma OutputOntoInput(output: Plug, input: Plug, accepts: Acceptance)
    requires output.direction == Out && input.direction == In
    requires output.node != input.node && accepts(input, output)
    ensures Connection(PlugPayload(output), input, accepts) == Some(PlugPair(input, output))
    ensures Connection(PlugPayload(input), output, accepts) == Some(PlugPair(input, output))
  {
  }

  /** The plug graph: each connected input maps to the output it takes its value from. */
  type Inputs = map<Plug, Plug>

  /** `plug->getInput()`: the source of `plug`, if any. */
  function Source(g: Inputs, plug: Plug): Option<Plug>
  {
    if plug in g then Some(g[plug]) else None
  }

  /** `plug->setInput( source )`, where `None` stands for a null source (disconnection). */
  function SetInput(g: Inputs, plug: Plug, source: Option<Plug>): (r: Inputs)
    ensures Source(r, plug) == source
    ensures forall q :: q != plug ==> Source(r, q) == Source(g, q)
  {
    match source
    case Some(s) => g[plug := s]
    case None => g - {plug}
  }

  /** Every connection in the graph obeys the rules `Connection` checks. */
  predicate ConnectionsValid(g: Inputs, accepts: Acceptance)
  {
    forall i | i in g :: ValidPair(PlugPair(i, g[i]), accepts)
  }
}

=== FILE: session.dfy ===
/**
  A set of standard nodules and the plug graph they edit, driven by the
  signals each nodule's constructor wires to its handlers. `Run` replays a
  sequence of signal deliveries; the lemmas state what any such sequence
  preserves.
 */
module NoduleSession {

  import opened Plugs
  import opened StandardNodule

  /** The signals a `StandardNodule` listens to, plus the `setLabelVisible` call. */
  datatype Signal =
    | SetLabelVisibleCall(visible: bool)
    | EnterSignal
    | LeaveSignal
    | ButtonPressSignal(buttons: bv32)
    | DragBeginSignal(position: Point)
    | DragEnterSignal(event: DragDropEvent, snap: Point)
    | DragMoveSignal(event: DragDropEvent)
    | DragLeaveSignal(event: DragDropEvent)
    | DragEndSignal(event: DragDropEvent)
    | DropSignal(event: DragDropEvent)

  /** One signal delivered to one nodule. */
  datatype Delivery = Delivery(target: NoduleId, signal: Signal)

  datatype World = World(nodules: map<NoduleId, Nodule>, graph: Inputs)

  /** The delivery names only nodules that exist. */
  predicate Addressed(ids: set<NoduleId>, d: Delivery)
  {
    && d.target in ids
    && (d.signal.DragEnterSignal? ==> SourceKnown(ids, d.signal.event))
  }

  /** Replaces the state of nodule `id`, keeping its plug. */
  function WithState(w: World, id: NoduleId, s: NoduleState): World
    requires id in w.nodules
  {
    w.(nodules := w.nodules[id := w.nodules[id].(state := s)])
  }

  /**
    Hands a signal to its handler on the target nodule. Only a drop edits the
    graph, only a drag entering sets `draggingConnection`, and only the
    label call changes label visibility.
   */
  function Dispatch(w: World, d: Delivery, accepts: Acceptance): (r: World)
    requires Addressed(w.nodules.Keys, d)
    ensures r.nodules.Keys == w.nodules.Keys
    ensures forall k | k in w.nodules :: r.nodules[k].plug == w.nodules[k].plug
    ensures !d.signal.DropSignal? ==> r.graph == w.graph
    ensures ConnectionsValid(w.graph, accepts) ==> ConnectionsValid(r.graph, accepts)
    ensures !d.signal.DragEnterSignal? ==>
              forall k | k in w.nodules && r.nodules[k].state.draggingConnection ::
                w.nodules[k].state.draggingConnection
    ensures !d.signal.SetLabelVisibleCall? ==>
              forall k | k in w.nodules :: r.nodules[k].state.labelVisible == w.nodules[k].state.labelVisible
    ensures !d.signal.DragEnterSignal? ==>
              forall k | k in w.nodules && k != d.target :: r.nodules[k] == w.nodules[k]
    ensures var s := w.nodules[d.target].state;
            var t := r.nodules[d.target].state;
            match d.signal
            case SetLabelVisibleCall(v) => t == SetLabelVisible(s, v).state
            case EnterSignal => t == Enter(s).state
            case LeaveSignal => t == Leave(s).state
            case ButtonPressSignal(_) => t == s
            case DragBeginSignal(p) => t == DragBegin(s, w.nodules[d.target].plug, p).state
            case DragEnterSignal(ev, snap) => r.nodules == DragEnter(w.nodules, d.target, ev, accepts, snap).nodules
            case DragMoveSignal(ev) => t == DragMove(s, ev).state
            case DragLeaveSignal(ev) => t == DragLeave(s, d.target, ev).state
            case DragEndSignal(ev) => t == DragEnd(s, ev).state
            case DropSignal(ev) =>
              var dropped := Drop(s, w.nodules[d.target].plug, ev, accepts, w.graph);
              t == dropped.state && r.graph == dropped.graph
  {
    var n := w.nodules[d.target];
    match d.signal
    case SetLabelVisibleCall(v) => WithState(w, d.target, SetLabelVisible(n.state, v).state)
    case EnterSignal => WithState(w, d.target, Enter(n.state).state)
    case LeaveSignal => WithState(w, d.target, Leave(n.state).state)
    case ButtonPressSignal(_) => w
    case DragBeginSignal(p) => WithState(w, d.target, DragBegin(n.state, n.plug, p).state)
    case DragEnterSignal(ev, snap) => w.(nodules := DragEnter(w.nodules, d.target, ev, accepts, snap).nodules)
    case DragMoveSignal(ev) => WithState(w, d.target, DragMove(n.state, ev).state)
    case DragLeaveSignal(ev) => WithState(w, d.target, DragLeave(n.state, d.target, ev).state)
    case DragEndSignal(ev) => WithState(w, d.target, DragEnd(n.state, ev).state)
    case DropSignal(ev) =>
      var r := Drop(n.state, n.plug, ev, accepts, w.graph);
      WithState(w, d.target, r.state).(graph := r.graph)
  }

  /** Every delivery in `ds` names only nodules of `ids`. */
  predicate AllAddressed(ids: set<NoduleId>, ds: seq<Delivery>)
  {
    forall i | 0 <= i < |ds| :: Addressed(ids, ds[i])
  }

  /** Delivers the signals of `ds` in order. */
  function Run(w: World, ds: seq<Delivery>, accepts: Acceptance): (r: World)
    requires AllAddressed(w.nodules.Keys, ds)
    ensures r.nodules.Keys == w.nodules.Keys
    decreases |ds|
  {
    if |ds| == 0 then w
    else Run(Dispatch(w, ds[0], accepts), ds[1..], accepts)
  }

  /** However the nodules are used, every connection they make obeys the connection rules. */
  lemma {:induction false} RunKeepsConnectionsValid(w: World, ds: seq<Delivery>, accepts: Acceptance)
    requires AllAddressed(w.nodules.Keys, ds)
    requires ConnectionsValid(w.graph, accepts)
    ensures ConnectionsValid(Run(w, ds, accepts).graph, accepts)
    decreases |ds|
  {
    if |ds| > 0 {
      RunKeepsConnectionsValid(Dispatch(w, ds[0], accepts), ds[1..], accepts);
    }
  }

  /** Without a drop the plug graph is never touched. */
  lemma {:induction false} RunWithoutDropKeepsGraph(w: World, ds: seq<Delivery>, accepts: Acceptance)
    requires AllAddressed(w.nodules.Keys, ds)
    requires forall i | 0 <= i < |ds| :: !ds[i].signal.DropSignal?
    ensures Run(w, ds, accepts).graph == w.graph
    decreases |ds|
  {
    if |ds| > 0 {
      RunWithoutDropKeepsGraph(Dispatch(w, ds[0], accepts), ds[1..], accepts);
    }
  }

  ghost predicate NoneDragging(w: World)
  {
    forall k | k in w.nodules :: !w.nodules[k].state.draggingConnection
  }

  /** A nodule only starts drawing a connection when a drag enters some nodule. */
  lemma {:induction false} DraggingStartsOnlyOnDragEnter(w: World, ds: seq<Delivery>, accepts: Acceptance)
    requires AllAddressed(w.nodules.Keys, ds)
    requires NoneDragging(w)
    requires forall i | 0 <= i < |ds| :: !ds[i].signal.DragEnterSignal?
    ensures NoneDragging(Run(w, ds, accepts))
    decreases |ds|
  {
    if |ds| > 0 {
      DraggingStartsOnlyOnDragEnter(Dispatch(w, ds[0], accepts), ds[1..], accepts);
    }
  }

  /** Label visibility changes only through `setLabelVisible`. */
  lemma {:induction false} LabelVisibilityOnlyBySetter(w: World, ds: seq<Delivery>, accepts: Acceptance, k: NoduleId)
    requires AllAddressed(w.nodules.Keys, ds)
    requires k in w.nodules
    requires forall i | 0 <= i < |ds| :: !ds[i].signal.SetLabelVisibleCall?
    ensures Run(w, ds, accepts).nodules[k].state.labelVisible == w.nodules[k].state.labelVisible
    decreases |ds|
  {
    if |ds| > 0 {
      LabelVisibilityOnlyBySetter(Dispatch(w, ds[0], accepts), ds[1..], accepts, k);
    }
  }
}

=== FILE: standard_nodule.dfy ===
/**
  The state and event handlers of one `StandardNodule`: the small socket a
  node shows for each of its plugs. Every handler is a pure function from the
  nodule's state (and, for `DragEnter` and `Drop`, the other objects it
  touches) to the new state, whether the event was accepted, and whether the
  nodule asked to be redrawn (`renderRequestSignal`).
 */
module StandardNodule {

  import opened Plugs

  type NoduleId = nat

  /** A point in some gadget's space; the geometry itself is not modelled. */
  datatype Point = Point(x: real, y: real, z: real)

  datatype Box = Box(min: Point, max: Point)

  datatype NoduleState = NoduleState(
    labelVisible: bool,
    hovering: bool,
    draggingConnection: bool,
    dragPosition: Point)

  datatype Nodule = Nodule(plug: Plug, state: NoduleState)

  /** The kinds of gadget an event can name as its source or destination. */
  datatype Gadget =
    | StandardNoduleGadget(id: NoduleId)
    | OtherNoduleGadget
    | ConnectionGadget(dstPlug: Plug)
    | OtherGadget

  /** A drag-and-drop event: source and destination gadgets (possibly null), the payload and the pointer. */
  datatype DragDropEvent = DragDropEvent(
    source: Option<Gadget>,
    destination: Option<Gadget>,
    data: Payload,
    position: Point)

  /** Result of a handler that returns nothing. */
  datatype Update = Update(state: NoduleState, render: bool)

  /** Result of a handler that accepts or declines its event. */
  datatype Response = Response(state: NoduleState, accepted: bool, render: bool)

  /** Result of `dragBegin`: the payload it hands to the drag. */
  datatype DragStart = DragStart(state: NoduleState, payload: Payload, render: bool)

  /** Result of `dragEnter`, which may also change the source nodule. */
  datatype EnterResponse = EnterResponse(nodules: map<NoduleId, Nodule>, accepted: bool, render: bool)

  /** Result of `drop`, which may also change the plug graph. */
  datatype DropResponse = DropResponse(state: NoduleState, graph: Inputs, accepted: bool)

  /** A freshly built nodule; the drag position is left unset by the constructor, so it is a parameter here. */
  function Initial(anyPosition: Point): (s: NoduleState)
    ensures !s.labelVisible && !s.hovering && !s.draggingConnection
  {
    NoduleState(false, false, false, anyPosition)
  }

  /** Changes label visibility; a redraw is requested only when the value actually changes. */
  function SetLabelVisible(s: NoduleState, visible: bool): (r: Update)
    ensures GetLabelVisible(r.state) == visible
    ensures r.render <==> GetLabelVisible(s) != visible
    ensures r.state.hovering == s.hovering
    ensures r.state.draggingConnection == s.draggingConnection
    ensures r.state.dragPosition == s.dragPosition
  {
    if visible == s.labelVisible then Update(s, false)
    else Update(s.(labelVisible := visible), true)
  }

  function GetLabelVisible(s: NoduleState): bool
  {
    s.labelVisible
  }

  /** Setting the same visibility twice requests at most one redraw, and the second call changes nothing. */
  lemma SetLabelVisibleTwice(s: NoduleState, visible: bool)
    ensures var first := SetLabelVisible(s, visible);
            var second := SetLabelVisible(first.state, visible);
            && !second.render
            && second.state == first.state
            && (first.render <==> s.labelVisible != visible)
  {
  }

  /** The nodule's extent: a unit square centred on its origin, flat in z, whatever its state. */
  function Bound(): (b: Box)
    ensures b.min.x + b.max.x == 0.0 && b.min.y + b.max.y == 0.0
    ensures b.max.x - b.min.x == 1.0 && b.max.y - b.min.y == 1.0
    ensures b.min.z == 0.0 && b.max.z == 0.0
  {
    Box(Point(-0.5, -0.5, 0.0), Point(0.5, 0.5, 0.0))
  }

  /** What one call of `doRender` draws. */
  datatype RenderPlan = RenderPlan(drawsConnection: bool, radius: real, highlighted: bool, drawsLabel: bool)

  /**
    The drawing decisions of `doRender`: the drag curve is drawn only while a
    connection is being dragged, the socket is large and highlighted while
    hovered, and the label is drawn when visible. During a selection pass
    (`selecting`) neither the curve nor the label is drawn; the label also
    needs an enclosing node gadget.
   */
  function Render(s: NoduleState, selecting: bool, hasNodeGadget: bool): (p: RenderPlan)
    ensures p.highlighted <==> s.hovering
    ensures s.hovering ==> p.radius == 1.0
    ensures !s.hovering ==> p.radius == 0.5
    ensures p.drawsConnection <==> s.draggingConnection && !selecting
    ensures p.drawsLabel <==> s.labelVisible && !selecting && hasNodeGadget
  {
    var radius := if s.hovering then 1.0 else 0.5;
    RenderPlan(
      s.draggingConnection && !selecting,
      radius,
      s.hovering,
      s.labelVisible && !selecting && hasNodeGadget)
  }

  /** The pointer entered the nodule: it hovers and asks to be redrawn. */
  function Enter(s: NoduleState): (r: Update)
    ensures r.render
    ensures r.state == s.(hovering := true)
  {
    Update(s.(hovering := true), true)
  }

  /** The pointer left the nodule: it stops hovering and asks to be redrawn. */
  function Leave(s: NoduleState): (r: Update)
    ensures r.render
    ensures r.state == s.(hovering := false)
  {
    Update(s.(hovering := false), true)
  }

  /** Entering draws the large highlighted socket; leaving draws the small normal one. */
  lemma HoverChangesSocket(s: NoduleState, selecting: bool, hasNodeGadget: bool)
    ensures Render(Enter(s).state, selecting, hasNodeGadget).radius == 1.0
    ensures Render(Enter(s).state, selecting, hasNodeGadget).highlighted
    ensures Render(Leave(s).state, selecting, hasNodeGadget).radius == 0.5
    ensures !Render(Leave(s).state, selecting, hasNodeGadget).highlighted
  {
  }

  /** Mouse button bits of a button event. */
  const LeftButton: bv32 := 1
  const MiddleButton: bv32 := 2
  const RightButton: bv32 := 4
  const LeftMiddle: bv32 := LeftButton | MiddleButton

  /** A press is accepted (so a drag can follow) exactly when the left or middle button is down. */
  function ButtonPress(buttons: bv32): (accepted: bool)
    ensures accepted <==> (buttons & LeftButton != 0 || buttons & MiddleButton != 0)
  {
    buttons & LeftMiddle != 0
  }

  /** Right clicks are left for context menus; left and middle presses start drags. */
  lemma ButtonPressExamples()
    ensures !ButtonPress(RightButton)
    ensures !ButtonPress(0)
    ensures ButtonPress(LeftButton) && ButtonPress(MiddleButton)
    ensures ButtonPress(LeftButton | RightButton)
  {
  }

  /** A drag starting on the nodule records the pointer and carries the nodule's plug. */
  function DragBegin(s: NoduleState, plug: Plug, position: Point): (r: DragStart)
    ensures r.payload == PlugPayload(plug)
    ensures r.state == s.(dragPosition := position)
    ensures r.render
  {
    DragStart(s.(dragPosition := position), PlugPayload(plug), true)
  }

  /** Every nodule an event names as a standard-nodule source is one of `nodules`. */
  predicate SourceKnown(nodules: set<NoduleId>, ev: DragDropEvent)
  {
    ev.source.Some? && ev.source.value.StandardNoduleGadget? ==> ev.source.value.id in nodules
  }

  /** The event's source is nodule `self` itself. */
  predicate FromSelf(self: NoduleId, ev: DragDropEvent)
  {
    ev.source == Some(StandardNoduleGadget(self))
  }

  /**
    A drag enters nodule `self`. If the drag started on this very nodule it is
    marked as dragging a connection. Otherwise, if the payload connects to this
    nodule's plug, the nodule hovers, a standard-nodule source gets its drag
    end snapped to `snap` (this nodule's centre in the source's space) and is
    marked as dragging too, and a redraw is requested. Any other drag is
    declined and nothing changes.
   */
  function DragEnter(nodules: map<NoduleId, Nodule>, self: NoduleId, ev: DragDropEvent,
                     accepts: Acceptance, snap: Point): (r: EnterResponse)
    requires self in nodules
    requires SourceKnown(nodules.Keys, ev)
    ensures r.nodules.Keys == nodules.Keys
    ensures forall k | k in nodules :: r.nodules[k].plug == nodules[k].plug
    ensures FromSelf(self, ev) ==>
              && r.accepted && !r.render
              && r.nodules[self].state == nodules[self].state.(draggingConnection := true)
              && forall k | k in nodules && k != self :: r.nodules[k] == nodules[k]
    ensures !FromSelf(self, ev) && Compatible(ev.data, nodules[self].plug, accepts) ==>
              && r.accepted && r.render
              && r.nodules[self].state == nodules[self].state.(hovering := true)
              && (ev.source.Some? && ev.source.value.StandardNoduleGadget? ==>
                    var src := ev.source.value.id;
                    && r.nodules[src].state.draggingConnection
                    && r.nodules[src].state.dragPosition == snap
                    && r.nodules[src].state.hovering == nodules[src].state.hovering
                    && r.nodules[src].state.labelVisible == nodules[src].state.labelVisible)
              && forall k | k in nodules && k != self && Some(StandardNoduleGadget(k)) != ev.source ::
                   r.nodules[k] == nodules[k]
    ensures !FromSelf(self, ev) && !Compatible(ev.data, nodules[self].plug, accepts) ==>
              !r.accepted && !r.render && r.nodules == nodules
  {
    var me := nodules[self];
    if FromSelf(self, ev) then
      EnterResponse(nodules[self := me.(state := me.state.(draggingConnection := true))], true, false)
    else if Connection(ev.data, me.plug, accepts).Some? then
      var hovered := nodules[self := me.(state := me.state.(hovering := true))];
      var snapped :=
        if ev.source.Some? && ev.source.value.StandardNoduleGadget? then
          var src := ev.source.value.id;
          var n := hovered[src];
          hovered[src := n.(state := n.state.(dragPosition := snap, draggingConnection := true))]
        else
          hovered;
      EnterResponse(snapped, true, true)
    else
      EnterResponse(nodules, false, false)
  }

  /**
    A drag entering its own source nodule makes that nodule draw the drag
    curve, and leaving it for anything but a nodule stops the curve.
   */
  lemma OwnDragDrawsCurve(nodules: map<NoduleId, Nodule>, self: NoduleId, ev: DragDropEvent,
                          accepts: Acceptance, snap: Point, hasNodeGadget: bool)
    requires self in nodules && FromSelf(self, ev)
    ensures var entered := DragEnter(nodules, self, ev, accepts, snap).nodules[self].state;
            && Render(entered, false, hasNodeGadget).drawsConnection
            && (ev.destination.None? || !IsNodule(ev.destination.value) ==>
                  !Render(DragLeave(entered, self, ev).state, false, hasNodeGadget).drawsConnection)
  {
  }

  /** The drag moves over the nodule: the drag end follows the pointer. */
  function DragMove(s: NoduleState, ev: DragDropEvent): (r: Response)
    ensures r.accepted && r.render
    ensures r.state == s.(dragPosition := ev.position)
  {
    Response(s.(dragPosition := ev.position), true, true)
  }

  predicate IsNodule(g: Gadget)
  {
    g.StandardNoduleGadget? || g.OtherNoduleGadget?
  }

  /**
    The drag leaves nodule `self`. A nodule that is not the drag's source stops
    hovering; the source nodule stops drawing its connection unless the drag
    is now over another nodule. Always accepted, always redrawn.
   */
  function DragLeave(s: NoduleState, self: NoduleId, ev: DragDropEvent): (r: Response)
    ensures r.accepted && r.render
    ensures !FromSelf(self, ev) ==> r.state == s.(hovering := false)
    ensures FromSelf(self, ev) ==>
              && r.state.hovering == s.hovering
              && r.state.labelVisible == s.labelVisible
              && r.state.dragPosition == s.dragPosition
              && (r.state.draggingConnection <==>
                    s.draggingConnection && ev.destination.Some? && IsNodule(ev.destination.value))
  {
    if !FromSelf(self, ev) then
      Response(s.(hovering := false), true, true)
    else if ev.destination.None? || !IsNodule(ev.destination.value) then
      Response(s.(draggingConnection := false), true, true)
    else
      Response(s, true, true)
  }

  /** The drag is over: whatever happened, the nodule neither drags nor hovers any more. */
  function DragEnd(s: NoduleState, ev: DragDropEvent): (r: Response)
    ensures r.accepted && r.render
    ensures !r.state.draggingConnection && !r.state.hovering
    ensures r.state.labelVisible == s.labelVisible && r.state.dragPosition == s.dragPosition
  {
    Response(s.(draggingConnection := false, hovering := false), true, true)
  }

  /** After the drag ends no connection curve is drawn and the socket is back to normal. */
  lemma DragEndStopsFeedback(s: NoduleState, ev: DragDropEvent, selecting: bool, hasNodeGadget: bool)
    ensures var p := Render(DragEnd(s, ev).state, selecting, hasNodeGadget);
            !p.drawsConnection && !p.highlighted && p.radius == 0.5
  {
  }

  /** The drop detaches an existing connection's destination first: the source is a connection gadget and this plug is an input. */
  predicate DetachesFirst(plug: Plug, ev: DragDropEvent)
  {
    ev.source.Some? && ev.source.value.ConnectionGadget? && plug.direction == In
  }

  /**
    Something is dropped on the nodule whose plug is `plug`. The nodule stops
    hovering. If the payload connects to the plug, then (when a connection is
    being re-dragged onto an input) the connection's old destination is
    disconnected, the input is connected to the output, and the drop is
    accepted; otherwise the graph is untouched and the drop declined.
   */
  function Drop(s: NoduleState, plug: Plug, ev: DragDropEvent, accepts: Acceptance, g: Inputs): (r: DropResponse)
    ensures r.state == s.(hovering := false)
    ensures r.accepted <==> Compatible(ev.data, plug, accepts)
    ensures !r.accepted ==> r.graph == g
    ensures var c := Connection(ev.data, plug, accepts);
            r.accepted ==>
              && Source(r.graph, c.value.input) == Some(c.value.output)
              && (DetachesFirst(plug, ev) && ev.source.value.dstPlug != c.value.input ==>
                    Source(r.graph, ev.source.value.dstPlug) == None)
              && forall q | q != c.value.input && !(DetachesFirst(plug, ev) && q == ev.source.value.dstPlug) ::
                   Source(r.graph, q) == Source(g, q)
    ensures ConnectionsValid(g, accepts) ==> ConnectionsValid(r.graph, accepts)
  {
    var s' := s.(hovering := false);
    match Connection(ev.data, plug, accepts)
    case Some(pair) =>
      var detached := if DetachesFirst(plug, ev) then SetInput(g, ev.source.value.dstPlug, None) else g;
      DropResponse(s', SetInput(detached, pair.input, Some(pair.output)), true)
    case None =>
      DropResponse(s', g, false)
  }

  /** Dropping anything that is not a plug is declined and leaves the graph alone. */
  lemma DropNonPlugDeclined(s: NoduleState, plug: Plug, ev: DragDropEvent, accepts: Acceptance, g: Inputs)
    requires ev.data.OtherPayload?
    ensures !Drop(s, plug, ev, accepts, g).accepted
    ensures Drop(s, plug, ev, accepts, g).graph == g
  {
  }
}
